=== FILE: README.md ===
# Forward-chaining knowledge base

A Dafny model of the knowledge base and the forward-chaining step of
`student_code.py`. The model covers these operations:

- `KnowledgeBase.kb_add`: dedup, or append plus chaining, or merge into the stored equal item.
- `kb_assert`.
- `kb_ask`.
- `_get_fact` / `_get_rule`.
- the first branch of `kb_remove`, reached through `kb_retract`.
- `InferenceEngine.fc_infer`.

The store is an immutable record of two sequences, facts and rules. Each
entry is a `Store.Node`:

- its key: a statement for a fact, an (lhs, rhs) pair for a rule;
- its `asserted` flag;
- its `supportedBy` pairs (rule, fact);
- its forward edges `supportsFacts` and `supportsRules`.

Two facts or rules are equal when their keys are equal. Support pairs and
edges name the item they point at by its key. Registering an edge updates
the first stored entry with that key, the one `list.index` finds.

The unification library is a parameter, `Logic.Unifier`. It is a pair of
arbitrary total functions standing for `match` and `instantiate`, so every
result holds whatever they compute.

`kb_add` and `fc_infer` call each other without bound. The model threads a
step budget through the cascade:

- each `fc_infer` call made by a chaining loop costs one unit;
- the unspent budget is returned;
- a chaining loop that finds the budget spent stops and returns 0;
- so a positive budget at the end means that no loop was cut short.

The chaining loops re-read the length of the list at every step. Like a
Python list iterator, they therefore also visit items that earlier steps
appended.

Three behaviours of the code differ from a textbook truth-maintenance
store, and the model follows the code:

- Merging a re-derived item appends the incoming support pairs without
  removing duplicates.
- `kb_remove` tests the flags of the object it is given, not those of the
  stored entry.
- `kb_ask` rejects any query that `factq` refuses, rather than only
  negated queries.

## Model

| member | source | states |
|---|---|---|
| Store.Find | student_code.py:59-69 | `list.index`: the first position holding the key. There is no position exactly when `in` is false. |
| Store.Get | student_code.py:22-48 | `_get_fact`/`_get_rule` return a stored node equal to the argument, or nothing when none is stored. Without duplicates, it is the only such node. |
| Store.Merge | student_code.py:63-70 | Merging into the stored equal node. Incoming support pairs are appended in order, without dedup, and `asserted` is untouched. With no pairs, only `asserted` becomes true. Lengths, keys, edges and every other entry are unchanged. The rule branch, lines 76-83, uses the same function. |
| Store.Link | student_code.py:184-198 | Registering the derived item appends one forward edge to the stored node with the given key. Flags, support pairs, keys and all other entries are unchanged. |
| Store.MergeAssertedIsIdentity | student_code.py:68-70 | Re-asserting an entry that is already asserted leaves the list equal to what it was. |
| Store.Clear | student_code.py:135 | Withdrawing an assertion clears `asserted` on the stored node equal to the key. Everything else is unchanged. |
| Store.MergeUndoesClear | student_code.py:68-70 | Merging a fresh assertion into a cleared list gives back the original list, if the entry was asserted before. |
| Logic.InstantiateAll | student_code.py:189-191 | The new lhs instantiates every conjunct under the bindings, in the same order and with the same length. |
| Chaining.Derive | student_code.py:176-194 | A failed match derives nothing. With one conjunct it derives the fact `instantiate(rhs, b)`, unasserted and supported by exactly `[(rule, fact)]`. With more, it derives a rule whose lhs is one shorter and holds the instantiated remaining conjuncts, whose rhs is the instantiated rhs, and which has the same single support pair. |
| Chaining.Infer | student_code.py:155-198 | A failed match leaves the store and the budget untouched. Otherwise the store only grows and keeps no duplicates. No stored entry's `asserted` flag changes, and every entry added is unasserted. When the fact and rule are stored, the derived item is stored with (rule, fact) among its supports, and both premises record the edge to it. |
| Chaining.Add | student_code.py:50-83 | `kb_add` never shrinks the store, never invents budget, keeps rules well formed and keeps both lists free of duplicates. The stored entry equal to the item carries every support pair the item brought. Adding an unasserted item with support pairs, as `fc_infer` does, changes no `asserted` flag and adds only unasserted entries. For a new item, including a user assertion, the chaining that follows the append changes no `asserted` flag and adds only unasserted entries. |
| Chaining.AddFact | student_code.py:58-70 | A new fact is appended after all existing facts, and what follows only extends it. With budget left it has been chained with every rule, including rules derived meanwhile. A fact equal to a stored one is merged at the `index` position, with no inference, the rules unchanged and the budget untouched. An unasserted fact with support pairs changes no `asserted` flag. For a new fact, the chaining after the append changes no `asserted` flag and adds only unasserted entries. |
| Chaining.AddRule | student_code.py:71-83 | The same for rules: appended last and chained with every fact including derived ones, or merged with no inference. An unasserted rule with support pairs changes no `asserted` flag. For a new rule, the chaining after the append changes no `asserted` flag and adds only unasserted entries. |
| Chaining.ChainFact | student_code.py:61-62 | The loop over `self.rules` from position i. The store only grows. With budget left, every rule from i on, including rules the loop itself added, has been chained with the fact. No `asserted` flag changes, and every entry added is unasserted. |
| Chaining.ChainRule | student_code.py:74-75 | The loop over `self.facts` from position i. The store only grows. With budget left, every fact from i on has been chained with the rule. No `asserted` flag changes, and every entry added is unasserted. |
| Assertions.Assert | student_code.py:85-92 | `kb_assert` only delegates to `kb_add`. The store only grows, stays free of duplicates and keeps the item's support pairs. For a new item, the chaining after the append changes no `asserted` flag and adds only unasserted entries. A user assertion (asserted, no pairs) leaves its stored entry asserted. Asserting an item without support pairs whose stored entry is already asserted returns the same store and budget. |
| Assertions.AddLeavesAsserted | student_code.py:58-83 | After adding an asserted item without support pairs, the stored entry equal to it is asserted, whatever chaining did meanwhile. |
| Assertions.ReassertIsIdentity | student_code.py:63-83 | Asserting an item without support pairs whose stored entry is already asserted returns the same store and the same budget, so no inference runs. |
| Assertions.AssertTwice | student_code.py:85-92 | Idempotent assertion: for an asserted item without support pairs, a second identical `kb_assert` changes nothing the first one produced. |
| Ask.Answers | student_code.py:104-113 | Each answer pairs one stored fact with the substitution `match(query, fact)` gave for it. There are never more answers than facts. |
| Ask.AnswersComplete | student_code.py:108-111 | Every stored fact the query matches appears as an answer, paired with `[that fact]`. |
| Ask.AnswersConcat | student_code.py:108-111 | Answers follow store order: the answers for a list of facts are the answers for its first part followed by those for the rest. |
| Ask.NoAnswers | student_code.py:113 | The result is `[]` exactly when no stored fact matches. |
| Ask.Ask | student_code.py:94-117 | `kb_ask` returns no answers for a query that is not a fact. Otherwise its loop returns exactly the answers over the stored facts in order. The store is a value, so it is not modified. |
| Retraction.Retract | student_code.py:119-136 | The first branch is taken exactly when the argument is supported and asserted. The argument then loses its assertion and nothing else about it changes. When the argument is the stored entry, that entry is no longer asserted. The other list, every other entry, and every other field of that entry are unchanged. When the argument is any other object, the store is unchanged. |
| Retraction.RetractThenAssert | student_code.py:129-136 | Retraction is undone by asserting again: retracting the stored entry itself, asserted and supported, and then asserting a fresh copy restores the original store exactly. |

## Left out

- Printing: `__repr__`, `__str__`, `printv` and the `print` calls (lines 13-20, 57, 91, 103, 116, 120, 166-167). These are console output only.
- The rest of `kb_remove` (lines 137-148): `Retraction.Retract` returns `Unmodelled` for every item that is not both supported and asserted. That code removes an item from lists of pairs, and lines 140-142 and 146-148 loop over a list already known to be empty.
- Object identity: the source registers and mutates objects. The model works by value:
  - `fc_infer` edges go to the stored entry equal to the freshly derived item, even when `kb_add` merged that item into an existing entry;
  - `kb_remove` clears the flag of its argument. The store changes only when the argument is the stored entry. An argument is taken to be the stored entry when it is equal to it in every field (`Store.IsStored`). A distinct object equal in every field to the stored entry therefore counts as that entry.
  - `kb_add`/`kb_assert` given the stored object itself with non-empty `supported_by` iterates over the list it appends to (lines 66-67, 79-80), so in the source it never returns. `Store.Merge` appends the incoming pairs once, as it does for any other object.
- The shared mutable default arguments of `KnowledgeBase.__init__` (line 8): the model starts from `Store.EmptyKB`, which meets the invariants the cascade keeps (`Chaining.EmptyKBInvariants`).
- Termination of the cascade: the step budget bounds it. Nothing is claimed about what happens after a loop is cut short.
- Chaining.AddFact: the chained-with-every-rule property is stated only when budget is left (`r.fuel > 0`).
- Chaining.AddRule: the chained-with-every-fact property is stated only when budget is left.
- Chaining.ChainFact: the property is stated only when budget is left.
- Chaining.ChainRule: the property is stated only when budget is left.
- Rules with an empty lhs: `fc_infer` raises on `rule.lhs[0]`. The model instead requires every stored rule to have a conjunct, and proves that the cascade keeps this.
- Internals of `match`, `instantiate`, `Fact`, `Rule`, `factq` and `ListOfBindings`: `util.py` and `logical_classes.py` are not part of this model.
  - `match` returning a falsy value is `None`, and every substitution it returns counts as success.
  - `factq` is read as "the query is a fact".
  - A `ListOfBindings` entry is an `Ask.Answer`.
- `kb_retract` on an argument that is neither a Fact nor a Rule does nothing. An `Item` is always one of the two, so this case cannot be expressed.

=== FILE: ask.dfy ===
/**
 * `KnowledgeBase.kb_ask`: the stored facts whose statements the query
 * matches, each reported with its substitution, in store order. Asking
 * never changes the store.
 */
module Ask {
  import opened Wrappers
  import opened Logic
  import opened Store

  /** One entry of the `ListOfBindings` the query returns: a substitution and the facts it came from. */
  datatype Answer = Answer(bindings: Bindings, facts: seq<Fact>)

  /**
   * The answers to query statement `q` over `facts`: one per fact that `q`
   * matches, paired with that single fact.
   */
  function Answers(u: Unifier, q: Statement, facts: seq<Fact>): (r: seq<Answer>)
    ensures |r| <= |facts|
    ensures forall k :: 0 <= k < |r| ==>
              && |r[k].facts| == 1
              && r[k].facts[0] in facts
              && u.Match(q, r[k].facts[0].key) == Some(r[k].bindings)
    decreases |facts|
  {
    if facts == [] then []
    else
      var rest := Answers(u, q, facts[1..]);
      match u.Match(q, facts[0].key)
      case None => rest
      case Some(b) => [Answer(b, [facts[0]])] + rest
  }

  /** Every stored fact the query matches is reported, with the substitution the match gave. */
  lemma {:induction false} AnswersComplete(u: Unifier, q: Statement, facts: seq<Fact>, n: Fact)
    requires n in facts && u.Match(q, n.key).Some?
    ensures Answer(u.Match(q, n.key).value, [n]) in Answers(u, q, facts)
    decreases |facts|
  {
    if facts[0] != n {
      AnswersComplete(u, q, facts[1..], n);
    }
  }

  /** Answers follow store order: those for an earlier stretch of facts come first. */
  lemma {:induction false} AnswersConcat(u: Unifier, q: Statement, a: seq<Fact>, b: seq<Fact>)
    ensures Answers(u, q, a + b) == Answers(u, q, a) + Answers(u, q, b)
    decreases |a|
  {
    if a != [] {
      assert (a + b)[0] == a[0] && (a + b)[1..] == a[1..] + b;
      AnswersConcat(u, q, a[1..], b);
    } else {
      assert a + b == b;
    }
  }

  /** The answer list is empty exactly when the query matches no stored fact. */
  lemma {:induction false} NoAnswers(u: Unifier, q: Statement, facts: seq<Fact>)
    ensures Answers(u, q, facts) == [] <==> forall n :: n in facts ==> u.Match(q, n.key).None?
  {
    var r := Answers(u, q, facts);
    if r == [] {
      forall n | n in facts
        ensures u.Match(q, n.key).None?
      {
        if u.Match(q, n.key).Some? {
          AnswersComplete(u, q, facts, n);
        }
      }
    } else {
      assert r[0].facts[0] in facts && u.Match(q, r[0].facts[0].key).Some?;
    }
  }

  /**
   * `kb_ask`: a query that is not a fact is rejected with no answers;
   * otherwise the loop over `self.facts` collects one answer per match.
   */
  method Ask(u: Unifier, kb: KB, query: Item) returns (answers: seq<Answer>)
    ensures query.RuleItem? ==> answers == []
    ensures query.FactItem? ==> answers == Answers(u, query.fact.key, kb.facts)
  {
    if query.RuleItem? {
      return [];
    }
    var q := query.fact.key;
    answers := [];
    var i := 0;
    while i < |kb.facts|
      invariant 0 <= i <= |kb.facts|
      invariant answers == Answers(u, q, kb.facts[..i])
    {
      var fact := kb.facts[i];
      AnswersConcat(u, q, kb.facts[..i], [fact]);
      assert kb.facts[..i + 1] == kb.facts[..i] + [fact];
      var binding := u.Match(q, fact.key);
      if binding.Some? {
        answers := answers + [Answer(binding.value, [fact])];
      }
      i := i + 1;
    }
    assert kb.facts[..i] == kb.facts;
  }
}

=== FILE: assertions.dfy ===
/**
 * Properties of `kb_assert`, the user's entry point, and of the items a
 * user states.
 */
module Assertions {
  import opened Wrappers
  import opened Logic
  import opened Store
  import opened Chaining

  /** The item as a user states it afresh: the same fact or rule, asserted and with no support pairs. */
  function UserItem(item: Item): (r: Item)
    ensures r.EdgeTo() == item.EdgeTo() && r.Asserted() && r.SupportedBy() == []
    ensures ItemWellFormed(item) ==> ItemWellFormed(r)
  {
    match item
    case FactItem(f) => FactItem(UserNode(f.key))
    case RuleItem(rl) => RuleItem(UserNode(rl.key))
  }

  /** The stored entry equal to `item` exists and is asserted. */
  ghost predicate StoredAsserted(kb: KB, item: Item) {
    match item
    case FactItem(f) => AssertedAt(kb.facts, f.key)
    case RuleItem(rl) => AssertedAt(kb.rules, rl.key)
  }

  /**
   * After `kb_add` of an asserted item without support pairs, the stored
   * entry equal to it is asserted, whatever chaining did meanwhile.
   */
  lemma AddLeavesAsserted(u: Unifier, kb: KB, item: Item, fuel: nat)
    requires WellFormed(kb) && ItemWellFormed(item) && item.Asserted() && item.SupportedBy() == []
    ensures StoredAsserted(Add(u, kb, item, fuel).kb, item)
  {
    var r := Add(u, kb, item, fuel);
    match item
    case FactItem(f) =>
      if f.key in Keys(kb.facts) {
        var i := Find(Keys(kb.facts), f.key).value;
        assert r == AddFact(u, kb, f, fuel);
        assert r.kb.facts == Merge(kb.facts, i, f);
        assert Get(r.kb.facts, f.key) == Some(r.kb.facts[i]);
      } else {
        GetAppended(kb.facts, f);
        GetGrows(kb.facts + [f], r.kb.facts, f.key);
      }
    case RuleItem(rl) =>
      if rl.key in Keys(kb.rules) {
        var i := Find(Keys(kb.rules), rl.key).value;
        assert r == AddRule(u, kb, rl, fuel);
        assert r.kb.rules == Merge(kb.rules, i, rl);
        assert Get(r.kb.rules, rl.key) == Some(r.kb.rules[i]);
      } else {
        GetAppended(kb.rules, rl);
        GetGrows(kb.rules + [rl], r.kb.rules, rl.key);
      }
  }

  /**
   * Idempotent assertion: asserting again an item whose stored entry is
   * already asserted leaves the store exactly as it was and runs no
   * inference.
   */
  lemma ReassertIsIdentity(u: Unifier, kb: KB, item: Item, fuel: nat)
    requires WellFormed(kb) && ItemWellFormed(item) && item.SupportedBy() == []
    requires StoredAsserted(kb, item)
    ensures Add(u, kb, item, fuel) == Outcome(kb, fuel)
  {
    match item
    case FactItem(f) =>
      MergeAssertedIsIdentity(kb.facts, Find(Keys(kb.facts), f.key).value, f);
    case RuleItem(rl) =>
      MergeAssertedIsIdentity(kb.rules, Find(Keys(kb.rules), rl.key).value, rl);
  }

  /**
   * `kb_assert`, the user's entry point, which only delegates to `kb_add`:
   * the store only grows and stays free of duplicates, the item's support
   * pairs are kept, the chaining a new item triggers asserts nothing, a user
   * assertion leaves its stored entry asserted, and
   * asserting what is already asserted changes nothing and runs no
   * inference.
   */
  function Assert(u: Unifier, kb: KB, item: Item, fuel: nat): (r: Outcome)
    requires WellFormed(kb) && ItemWellFormed(item)
    ensures Extends(kb, r, fuel)
    ensures Kept(r.kb, item)
    ensures IsNew(kb, item) ==> AssertsNothing(Appended(kb, item), r.kb)
    ensures item.Asserted() && item.SupportedBy() == [] ==> StoredAsserted(r.kb, item)
    ensures StoredAsserted(kb, item) && item.SupportedBy() == [] ==> r == Outcome(kb, fuel)
  {
    AssertionFacts(u, kb, item, fuel);
    Add(u, kb, item, fuel)
  }

  lemma AssertionFacts(u: Unifier, kb: KB, item: Item, fuel: nat)
    requires WellFormed(kb) && ItemWellFormed(item)
    ensures item.Asserted() && item.SupportedBy() == [] ==> StoredAsserted(Add(u, kb, item, fuel).kb, item)
    ensures StoredAsserted(kb, item) && item.SupportedBy() == [] ==> Add(u, kb, item, fuel) == Outcome(kb, fuel)
  {
    if item.Asserted() && item.SupportedBy() == [] {
      AddLeavesAsserted(u, kb, item, fuel);
    }
    if StoredAsserted(kb, item) && item.SupportedBy() == [] {
      ReassertIsIdentity(u, kb, item, fuel);
    }
  }

  /**
   * Asserting the same fact or rule twice gives the store the first
   * assertion gave: one entry, asserted, its support pairs untouched.
   */
  lemma AssertTwice(u: Unifier, kb: KB, item: Item, fuel: nat, fuel': nat)
    requires WellFormed(kb) && ItemWellFormed(item) && item.Asserted() && item.SupportedBy() == []
    ensures var o := Assert(u, kb, item, fuel);
            Assert(u, o.kb, item, fuel') == Outcome(o.kb, fuel')
  {
    var o := Assert(u, kb, item, fuel);
    AddLeavesAsserted(u, kb, item, fuel);
    ReassertIsIdentity(u, o.kb, item, fuel');
  }
}

=== FILE: chaining.dfy ===
/**
 * `KnowledgeBase.kb_add` and `InferenceEngine.fc_infer`, which call each
 * other: adding a new item chains it against every stored item of the other
 * kind, and each successful chaining step adds the item it derives.
 *
 * Nothing bounds that recursion in the source, so here it runs on a step
 * budget `fuel`: every `fc_infer` call made by one of the two chaining loops
 * costs one unit, and the unspent budget is returned. A loop that finds the
 * budget spent stops early and returns 0, so a positive budget left at the
 * end means that no loop was cut short.
 */
module Chaining {
  import opened Wrappers
  import opened Logic
  import opened Store

  /** The store after an operation, and the part of the step budget left unspent. */
  datatype Outcome = Outcome(kb: KB, fuel: nat)

  /**
   * Every stored rule has a first conjunct; `fc_infer` reads `rule.lhs[0]`
   * and the source raises on a rule without one.
   */
  ghost predicate WellFormed(kb: KB) {
    forall i :: 0 <= i < |kb.rules| ==> |kb.rules[i].key.lhs| > 0
  }

  ghost predicate ItemWellFormed(item: Item) {
    item.RuleItem? ==> |item.rule.key.lhs| > 0
  }

  /**
   * What every step of the cascade keeps: rules stay well formed, the store
   * only grows, no budget is created, and no duplicate entry appears.
   */
  ghost predicate Extends(kb: KB, r: Outcome, fuel: nat) {
    && WellFormed(r.kb)
    && Grows(kb, r.kb)
    && r.fuel <= fuel
    && (NoDup(kb.facts) ==> NoDup(r.kb.facts))
    && (NoDup(kb.rules) ==> NoDup(r.kb.rules))
  }

  lemma ExtendsTransitive(kb: KB, o: Outcome, r: Outcome, fuel: nat)
    requires Extends(kb, o, fuel) && Extends(o.kb, r, o.fuel)
    ensures Extends(kb, r, fuel)
  {
    GrowsTransitive(kb, o.kb, r.kb);
  }

  /** The stored entry equal to `d` counts `sup` among its justifications. */
  ghost predicate Holds(kb: KB, d: Item, sup: Support) {
    match d
    case FactItem(n) => HasSupport(kb.facts, n.key, sup)
    case RuleItem(n) => HasSupport(kb.rules, n.key, sup)
  }

  /** Every justification `item` arrived with is recorded on the stored entry equal to it. */
  ghost predicate Kept(kb: KB, item: Item) {
    forall p :: p in item.SupportedBy() ==> Holds(kb, item, p)
  }

  lemma HoldsGrows(kb: KB, kb': KB, d: Item, sup: Support)
    requires Grows(kb, kb') && Holds(kb, d, sup)
    ensures Holds(kb', d, sup)
  {
    var e := d.EdgeTo();
    match d
    case FactItem(n) => RecordsGrow(kb.facts, kb'.facts, n.key, sup, e);
    case RuleItem(n) => RecordsGrow(kb.rules, kb'.rules, n.key, sup, e);
  }

  /**
   * The item one `fc_infer` step builds from a fact statement and a rule, or
   * `None` when the fact does not match the rule's first conjunct.
   */
  function Derive(u: Unifier, s: Statement, rk: RuleKey): (r: Option<Item>)
    requires |rk.lhs| > 0
    ensures r.None? <==> u.Match(s, rk.lhs[0]).None?
    ensures r.Some? ==>
              && ItemWellFormed(r.value)
              && !r.value.Asserted()
              && r.value.SupportedBy() == [Support(rk, s)]
    ensures r.Some? && |rk.lhs| == 1 ==>
              var b := u.Match(s, rk.lhs[0]).value;
              r.value == FactItem(Node(u.Instantiate(rk.rhs, b), false, [Support(rk, s)], [], []))
    ensures r.Some? && |rk.lhs| > 1 ==>
              var b := u.Match(s, rk.lhs[0]).value;
              && r.value.RuleItem?
              && r.value.rule.supportsFacts == [] && r.value.rule.supportsRules == []
              && r.value.rule.key.rhs == u.Instantiate(rk.rhs, b)
              && |r.value.rule.key.lhs| == |rk.lhs| - 1
              && forall k :: 0 <= k < |rk.lhs| - 1 ==>
                   r.value.rule.key.lhs[k] == u.Instantiate(rk.lhs[k + 1], b)
  {
    match u.Match(s, rk.lhs[0])
    case None => None
    case Some(b) =>
      var support := [Support(rk, s)];
      var rhs := u.Instantiate(rk.rhs, b);
      if |rk.lhs| == 1 then
        Some(FactItem(Node(rhs, false, support, [], [])))
      else
        Some(RuleItem(Node(RuleKey(InstantiateAll(u, rk.lhs[1..], b), rhs), false, support, [], [])))
  }

  /**
   * The stored fact `s` and the stored rule `rk` have been chained: when the
   * fact matches the rule's first conjunct, the derived item is stored with
   * the pair (rk, s) among its justifications, and both premises record the
   * forward edge to it.
   */
  ghost predicate Applied(u: Unifier, kb: KB, s: Statement, rk: RuleKey)
    requires |rk.lhs| > 0
  {
    match Derive(u, s, rk)
    case None => true
    case Some(d) =>
      && Holds(kb, d, Support(rk, s))
      && HasEdgeAt(kb.facts, s, d.EdgeTo())
      && HasEdgeAt(kb.rules, rk, d.EdgeTo())
  }

  lemma AppliedGrows(u: Unifier, kb: KB, kb': KB, s: Statement, rk: RuleKey)
    requires |rk.lhs| > 0 && Grows(kb, kb') && Applied(u, kb, s, rk)
    ensures Applied(u, kb', s, rk)
  {
    match Derive(u, s, rk)
    case None =>
    case Some(d) =>
      var sup := Support(rk, s);
      var e := d.EdgeTo();
      RecordsGrow(kb.facts, kb'.facts, s, sup, e);
      RecordsGrow(kb.rules, kb'.rules, rk, sup, e);
      HoldsGrows(kb, kb', d, sup);
  }

  lemma AppliedToRulesFrom(u: Unifier, kb: KB, s: Statement, i: nat)
    requires WellFormed(kb) && i < |kb.rules|
    requires Applied(u, kb, s, kb.rules[i].key)
    requires forall j :: i + 1 <= j < |kb.rules| ==> Applied(u, kb, s, kb.rules[j].key)
    ensures forall j :: i <= j < |kb.rules| ==> Applied(u, kb, s, kb.rules[j].key)
  {
  }

  lemma AppliedToFactsFrom(u: Unifier, kb: KB, rk: RuleKey, i: nat)
    requires |rk.lhs| > 0 && i < |kb.facts|
    requires Applied(u, kb, kb.facts[i].key, rk)
    requires forall j :: i + 1 <= j < |kb.facts| ==> Applied(u, kb, kb.facts[j].key, rk)
    ensures forall j :: i <= j < |kb.facts| ==> Applied(u, kb, kb.facts[j].key, rk)
  {
  }

  /** The store every session starts from satisfies the invariants the cascade keeps. */
  lemma EmptyKBInvariants()
    ensures WellFormed(EmptyKB) && NoDup(EmptyKB.facts) && NoDup(EmptyKB.rules)
  {
  }

  /** Appending a fact under a new key is itself a step the cascade may take. */
  lemma AppendedFactExtends(kb: KB, f: Fact, fuel: nat)
    requires WellFormed(kb) && f.key !in Keys(kb.facts)
    ensures Extends(kb, Outcome(KB(kb.facts + [f], kb.rules), fuel), fuel)
    ensures f.key in Keys(kb.facts + [f])
  {
    NoDupAppend(kb.facts, f);
    GetAppended(kb.facts, f);
  }

  /** Appending a well-formed rule under a new key is itself a step the cascade may take. */
  lemma AppendedRuleExtends(kb: KB, rl: Rule, fuel: nat)
    requires WellFormed(kb) && |rl.key.lhs| > 0 && rl.key !in Keys(kb.rules)
    ensures Extends(kb, Outcome(KB(kb.facts, kb.rules + [rl]), fuel), fuel)
    ensures rl.key in Keys(kb.rules + [rl])
  {
    NoDupAppend(kb.rules, rl);
    GetAppended(kb.rules, rl);
  }

  /**
   * `fc_infer(fact, rule, kb)` for the stored fact with statement `s` and the
   * stored rule with key `rk`: derive, add the derived item, then record it in
   * the forward edges of both the rule and the fact.
   */
  function Infer(u: Unifier, kb: KB, s: Statement, rk: RuleKey, fuel: nat): (r: Outcome)
    requires WellFormed(kb) && |rk.lhs| > 0
    ensures Extends(kb, r, fuel)
    ensures u.Match(s, rk.lhs[0]).None? ==> r == Outcome(kb, fuel)
    ensures AssertsNothing(kb, r.kb)
    ensures s in Keys(kb.facts) && rk in Keys(kb.rules) ==> Applied(u, r.kb, s, rk)
    decreases fuel, 3
  {
    match Derive(u, s, rk)
    case None =>
      AssertsNothingReflexive(kb);
      Outcome(kb, fuel)
    case Some(d) =>
      var o := Add(u, kb, d, fuel);
      var e := d.EdgeTo();
      LinkPremises(u, kb, o, s, rk, d, fuel);
      Outcome(KB(Link(o.kb.facts, s, e), Link(o.kb.rules, rk, e)), o.fuel)
  }

  /**
   * The last part of an `fc_infer` step: once the derived item `d` has been
   * added, recording the edge to it on the fact and the rule keeps the
   * cascade's invariants and completes the step.
   */
  lemma LinkPremises(u: Unifier, kb: KB, o: Outcome, s: Statement, rk: RuleKey, d: Item, fuel: nat)
    requires |rk.lhs| > 0 && Derive(u, s, rk) == Some(d)
    requires Extends(kb, o, fuel) && AssertsNothing(kb, o.kb) && Kept(o.kb, d)
    ensures var r := Outcome(KB(Link(o.kb.facts, s, d.EdgeTo()), Link(o.kb.rules, rk, d.EdgeTo())), o.fuel);
            && Extends(kb, r, fuel)
            && AssertsNothing(kb, r.kb)
            && (s in Keys(kb.facts) && rk in Keys(kb.rules) ==> Applied(u, r.kb, s, rk))
  {
    var e := d.EdgeTo();
    var facts := Link(o.kb.facts, s, e);
    var rules := Link(o.kb.rules, rk, e);
    var r := Outcome(KB(facts, rules), o.fuel);
    LinkAssertsNothing(o.kb, s, rk, e);
    AssertsNothingTransitive(kb, o.kb, r.kb);
    LinkGrows(o.kb.facts, s, e);
    LinkGrows(o.kb.rules, rk, e);
    NoDupSameKeys(o.kb.facts, facts);
    NoDupSameKeys(o.kb.rules, rules);
    ExtendsTransitive(kb, o, r, fuel);
    assert Holds(o.kb, d, Support(rk, s));
    HoldsGrows(o.kb, r.kb, d, Support(rk, s));
    if s in Keys(kb.facts) && rk in Keys(kb.rules) {
      GetGrows(kb.facts, o.kb.facts, s);
      GetGrows(kb.rules, o.kb.rules, rk);
      LinkRecords(o.kb.facts, s, e);
      LinkRecords(o.kb.rules, rk, e);
    }
  }

  /** No stored entry of the item's kind is equal to it. */
  predicate IsNew(kb: KB, item: Item) {
    match item
    case FactItem(f) => f.key !in Keys(kb.facts)
    case RuleItem(rl) => rl.key !in Keys(kb.rules)
  }

  /** The store with the item appended after the entries of its kind, as `kb_add` first does with a new item. */
  function Appended(kb: KB, item: Item): KB {
    match item
    case FactItem(f) => KB(kb.facts + [f], kb.rules)
    case RuleItem(rl) => KB(kb.facts, kb.rules + [rl])
  }

  /**
   * `kb_add`: dispatches on the kind of item, as the source's `isinstance`
   * tests do. Whatever happens, the store only grows, stays free of
   * duplicates, and keeps every justification the item arrived with.
   */
  function Add(u: Unifier, kb: KB, item: Item, fuel: nat): (r: Outcome)
    requires WellFormed(kb) && ItemWellFormed(item)
    ensures Extends(kb, r, fuel)
    ensures Kept(r.kb, item)
    ensures !item.Asserted() && item.SupportedBy() != [] ==> AssertsNothing(kb, r.kb)
    ensures IsNew(kb, item) ==> AssertsNothing(Appended(kb, item), r.kb)
    decreases fuel, 2
  {
    match item
    case FactItem(f) => AddFact(u, kb, f, fuel)
    case RuleItem(rl) => AddRule(u, kb, rl, fuel)
  }

  /**
   * The fact branch of `kb_add`. A fact not yet stored is appended after the
   * existing facts and, unless the budget runs out, chained with every rule,
   * including the rules that chaining itself adds. A fact equal to a stored
   * one is merged into it and no inference runs.
   */
  function AddFact(u: Unifier, kb: KB, f: Fact, fuel: nat): (r: Outcome)
    requires WellFormed(kb)
    ensures Extends(kb, r, fuel)
    ensures Kept(r.kb, FactItem(f))
    ensures !f.asserted && f.supportedBy != [] ==> AssertsNothing(kb, r.kb)
    ensures f.key !in Keys(kb.facts) ==>
              && Grows(KB(kb.facts + [f], kb.rules), r.kb)
              && AssertsNothing(KB(kb.facts + [f], kb.rules), r.kb)
              && (r.fuel > 0 ==> forall j :: 0 <= j < |r.kb.rules| ==> Applied(u, r.kb, f.key, r.kb.rules[j].key))
    ensures f.key in Keys(kb.facts) ==>
              r == Outcome(KB(Merge(kb.facts, Find(Keys(kb.facts), f.key).value, f), kb.rules), fuel)
    decreases fuel, 1
  {
    match Find(Keys(kb.facts), f.key)
    case None =>
      var kb' := KB(kb.facts + [f], kb.rules);
      AppendedFactExtends(kb, f, fuel);
      var r := ChainFact(u, kb', f.key, 0, fuel);
      ExtendsTransitive(kb, Outcome(kb', fuel), r, fuel);
      AppendAssertsNothing(kb.facts, f);
      AssertsNothingReflexive(kb);
      AssertsNothingTransitive(kb, kb', r.kb);
      AppendedKeepsSupport(kb.facts, f, r.kb.facts);
      r
    case Some(i) =>
      var facts := Merge(kb.facts, i, f);
      MergeGrows(kb.facts, i, f);
      NoDupSameKeys(kb.facts, facts);
      MergeKeepsSupport(kb.facts, f);
      MergeAssertsNothing(kb.facts, i, f);
      AssertsNothingReflexive(kb);
      Outcome(KB(facts, kb.rules), fuel)
  }

  /**
   * The rule branch of `kb_add`. A rule not yet stored is appended after the
   * existing rules and, unless the budget runs out, chained with every fact,
   * including the facts that chaining itself adds. A rule equal to a stored
   * one is merged into it and no inference runs.
   */
  function AddRule(u: Unifier, kb: KB, rl: Rule, fuel: nat): (r: Outcome)
    requires WellFormed(kb) && |rl.key.lhs| > 0
    ensures Extends(kb, r, fuel)
    ensures Kept(r.kb, RuleItem(rl))
    ensures !rl.asserted && rl.supportedBy != [] ==> AssertsNothing(kb, r.kb)
    ensures rl.key !in Keys(kb.rules) ==>
              && Grows(KB(kb.facts, kb.rules + [rl]), r.kb)
              && AssertsNothing(KB(kb.facts, kb.rules + [rl]), r.kb)
              && (r.fuel > 0 ==> forall j :: 0 <= j < |r.kb.facts| ==> Applied(u, r.kb, r.kb.facts[j].key, rl.key))
    ensures rl.key in Keys(kb.rules) ==>
              r == Outcome(KB(kb.facts, Merge(kb.rules, Find(Keys(kb.rules), rl.key).value, rl)), fuel)
    decreases fuel, 1
  {
    match Find(Keys(kb.rules), rl.key)
    case None =>
      var kb' := KB(kb.facts, kb.rules + [rl]);
      AppendedRuleExtends(kb, rl, fuel);
      var r := ChainRule(u, kb', rl.key, 0, fuel);
      ExtendsTransitive(kb, Outcome(kb', fuel), r, fuel);
      AppendAssertsNothing(kb.rules, rl);
      AssertsNothingReflexive(kb);
      AssertsNothingTransitive(kb, kb', r.kb);
      AppendedKeepsSupport(kb.rules, rl, r.kb.rules);
      r
    case Some(i) =>
      var rules := Merge(kb.rules, i, rl);
      MergeGrows(kb.rules, i, rl);
      NoDupSameKeys(kb.rules, rules);
      MergeKeepsSupport(kb.rules, rl);
      MergeAssertsNothing(kb.rules, i, rl);
      AssertsNothingReflexive(kb);
      Outcome(KB(kb.facts, rules), fuel)
  }

  /**
   * The loop `for rule in self.rules: fc_infer(fact, rule, self)` from
   * position `i` on. Like a Python list iterator it re-reads the length at
   * every step, so rules appended by earlier steps are visited too.
   */
  function ChainFact(u: Unifier, kb: KB, s: Statement, i: nat, fuel: nat): (r: Outcome)
    requires WellFormed(kb)
    ensures Extends(kb, r, fuel)
    ensures AssertsNothing(kb, r.kb)
    ensures s in Keys(kb.facts) && r.fuel > 0 ==>
              forall j :: i <= j < |r.kb.rules| ==> Applied(u, r.kb, s, r.kb.rules[j].key)
    decreases fuel, 0
  {
    if i >= |kb.rules| then AssertsNothingReflexive(kb); Outcome(kb, fuel)
    else if fuel == 0 then AssertsNothingReflexive(kb); Outcome(kb, 0)
    else
      var rk := kb.rules[i].key;
      var o := Infer(u, kb, s, rk, fuel - 1);
      var r := ChainFact(u, o.kb, s, i + 1, o.fuel);
      ExtendsTransitive(kb, o, r, fuel);
      AssertsNothingTransitive(kb, o.kb, r.kb);
      if s in Keys(kb.facts) && r.fuel > 0 then
        assert Keys(kb.rules)[i] == rk;
        GetGrows(kb.facts, o.kb.facts, s);
        AppliedGrows(u, o.kb, r.kb, s, rk);
        AppliedToRulesFrom(u, r.kb, s, i);
        r
      else r
  }

  /** The loop `for fact in self.facts: fc_infer(fact, rule, self)` from position `i` on. */
  function ChainRule(u: Unifier, kb: KB, rk: RuleKey, i: nat, fuel: nat): (r: Outcome)
    requires WellFormed(kb) && |rk.lhs| > 0
    ensures Extends(kb, r, fuel)
    ensures AssertsNothing(kb, r.kb)
    ensures rk in Keys(kb.rules) && r.fuel > 0 ==>
              forall j :: i <= j < |r.kb.facts| ==> Applied(u, r.kb, r.kb.facts[j].key, rk)
    decreases fuel, 0
  {
    if i >= |kb.facts| then AssertsNothingReflexive(kb); Outcome(kb, fuel)
    else if fuel == 0 then AssertsNothingReflexive(kb); Outcome(kb, 0)
    else
      var s := kb.facts[i].key;
      var o := Infer(u, kb, s, rk, fuel - 1);
      var r := ChainRule(u, o.kb, rk, i + 1, o.fuel);
      ExtendsTransitive(kb, o, r, fuel);
      AssertsNothingTransitive(kb, o.kb, r.kb);
      if rk in Keys(kb.rules) && r.fuel > 0 then
        assert Keys(kb.facts)[i] == s;
        GetGrows(kb.rules, o.kb.rules, rk);
        AppliedGrows(u, o.kb, r.kb, s, rk);
        AppliedToFactsFrom(u, r.kb, rk, i);
        r
      else r
  }
}

=== FILE: logic.dfy ===
/**
 * Statements and the unification collaborator. The engine consumes `match`
 * and `instantiate` from a library that is not part of this model, so they
 * enter as the two (arbitrary, total) functions of a `Unifier` value: every
 * property proved below holds whatever those functions do.
 */
module Logic {
  import opened Wrappers

  datatype Term = Variable(name: string) | Constant(name: string)

  /** An atomic statement: a predicate symbol applied to an ordered list of terms. */
  datatype Statement = Statement(symbol: string, terms: seq<Term>)

  /** A substitution from variable names to terms. */
  type Bindings = map<string, Term>

  /**
   * `Match(a, b)` is `util.match(a, b)`, arguments in the order the caller
   * gives them (`fc_infer` passes the fact's statement first, `kb_ask` the
   * query): a substitution on success, `None` where the library returns
   * `False`. `Instantiate(statement, b)` is `util.instantiate`.
   */
  datatype Unifier = Unifier(
    Match: (Statement, Statement) -> Option<Bindings>,
    Instantiate: (Statement, Bindings) -> Statement)

  /** Instantiates every conjunct of a list under one substitution, keeping the order. */
  function InstantiateAll(u: Unifier, conjuncts: seq<Statement>, b: Bindings): (r: seq<Statement>)
    ensures |r| == |conjuncts|
    ensures forall k :: 0 <= k < |conjuncts| ==> r[k] == u.Instantiate(conjuncts[k], b)
  {
    if conjuncts == [] then []
    else [u.Instantiate(conjuncts[0], b)] + InstantiateAll(u, conjuncts[1..], b)
  }
}

=== FILE: retraction.dfy ===
/**
 * `kb_retract` and the first branch of `kb_remove`: an item that is both
 * asserted and supported only loses its assertion. The rest of `kb_remove`
 * is not part of this model, so every other call yields `Unmodelled`.
 */
module Retraction {
  import opened Wrappers
  import opened Logic
  import opened Store
  import opened Chaining
  import opened Assertions

  /**
   * What the first branch of `kb_remove` leaves: the store, and the argument
   * object, whose flag it clears.
   */
  datatype Retracted = Cleared(kb: KB, argument: Item) | Unmodelled

  /** `kb'` is `kb` with only the assertion of the entry equal to `item` withdrawn. */
  ghost predicate Withdrawn(kb: KB, kb': KB, item: Item) {
    match item
    case FactItem(f) => kb'.rules == kb.rules && ClearedAt(kb.facts, kb'.facts, f.key)
    case RuleItem(rl) => kb'.facts == kb.facts && ClearedAt(kb.rules, kb'.rules, rl.key)
  }

  /**
   * `kb_retract(item)`. Both of its `isinstance` branches call `kb_remove`,
   * which tests the flags of the object it is given and clears that
   * object's `asserted`. The store changes only when that object is the
   * stored entry itself; any other object is changed outside the store.
   */
  function Retract(kb: KB, item: Item): (r: Retracted)
    ensures r.Cleared? <==> item.SupportedBy() != [] && item.Asserted()
    ensures r.Cleared? ==> !r.argument.Asserted() && r.argument.Unasserted() == item.Unasserted()
    ensures r.Cleared? && !IsStored(kb, item) ==> r.kb == kb
    ensures r.Cleared? && IsStored(kb, item) ==>
              Withdrawn(kb, r.kb, item) && !StoredAsserted(r.kb, item)
  {
    if item.SupportedBy() != [] && item.Asserted() then
      var argument := item.Unasserted();
      if !IsStored(kb, item) then Cleared(kb, argument)
      else
        match item
        case FactItem(f) =>
          ClearWithdraws(kb.facts, f.key);
          Cleared(KB(Clear(kb.facts, f.key), kb.rules), argument)
        case RuleItem(rl) =>
          ClearWithdraws(kb.rules, rl.key);
          Cleared(KB(kb.facts, Clear(kb.rules, rl.key)), argument)
    else Unmodelled
  }

  /** After `Clear`, the entry equal to the key is not asserted. */
  lemma ClearWithdraws<K>(ns: seq<Node<K>>, k: K)
    ensures !AssertedAt(Clear(ns, k), k)
  {
    var ms := Clear(ns, k);
    if k in Keys(ns) {
      var i := Find(Keys(ns), k).value;
      assert Get(ms, k) == Some(ms[i]);
    }
  }

  /** Withdrawing an assertion keeps every stored key, so the rules stay well formed. */
  lemma WithdrawnWellFormed(kb: KB, kb': KB, item: Item)
    requires WellFormed(kb) && Withdrawn(kb, kb', item)
    ensures WellFormed(kb')
  {
    forall i | 0 <= i < |kb'.rules|
      ensures |kb'.rules[i].key.lhs| > 0
    {
      assert Keys(kb'.rules)[i] == Keys(kb.rules)[i];
    }
  }

  /**
   * Retracting is undone by asserting again: retracting the stored entry
   * itself, asserted and supported, and then asserting a fresh copy of it
   * restores the store exactly, and no inference runs.
   */
  lemma RetractThenAssert(u: Unifier, kb: KB, item: Item, fuel: nat)
    requires WellFormed(kb) && ItemWellFormed(item)
    requires item.SupportedBy() != [] && item.Asserted() && IsStored(kb, item)
    ensures Retract(kb, item).Cleared?
    ensures WellFormed(Retract(kb, item).kb)
    ensures Assert(u, Retract(kb, item).kb, UserItem(item), fuel) == Outcome(kb, fuel)
  {
    var kb' := Retract(kb, item).kb;
    WithdrawnWellFormed(kb, kb', item);
    match item
    case FactItem(f) =>
      MergeUndoesClear(kb.facts, f.key);
    case RuleItem(rl) =>
      MergeUndoesClear(kb.rules, rl.key);
  }
}

=== FILE: store.dfy ===
/**
 * The knowledge-base data: facts and rules, their flags and the support
 * graph. Facts and rules have the same shape, so both are a `Node`, told
 * apart only by the type of their key. Facts are taken to be equal when
 * their statements are, rules when their (lhs, rhs) pairs are: that is this
 * model's reading of `Fact.__eq__` and `Rule.__eq__`, whose classes are not
 * part of it. The support graph is kept by value: edges name the key of the
 * item they point at.
 */
module Store {
  import opened Wrappers
  import opened Logic

  /** What makes two rules equal: the conjunct list and the conclusion. */
  datatype RuleKey = RuleKey(lhs: seq<Statement>, rhs: Statement)

  /** One justification of a derived item: the rule and the fact that produced it. */
  datatype Support = Support(rule: RuleKey, fact: Statement)

  /** A forward edge: the item that exists because this one took part in deriving it. */
  datatype Edge = ToFact(statement: Statement) | ToRule(rule: RuleKey)

  /** A fact or rule together with its truth-maintenance bookkeeping. */
  datatype Node<K> = Node(
    key: K,
    asserted: bool,
    supportedBy: seq<Support>,
    supportsFacts: seq<Statement>,
    supportsRules: seq<RuleKey>)
  {
    /** True when this node records `e` among the items it supports. */
    predicate HasEdge(e: Edge) {
      match e
      case ToFact(s) => s in supportsFacts
      case ToRule(r) => r in supportsRules
    }
  }

  type Fact = Node<Statement>
  type Rule = Node<RuleKey>

  /** The argument of `kb_add`, `kb_assert` and `kb_retract`: a Fact or a Rule. */
  datatype Item = FactItem(fact: Fact) | RuleItem(rule: Rule)
  {
    function SupportedBy(): seq<Support> {
      match this
      case FactItem(n) => n.supportedBy
      case RuleItem(n) => n.supportedBy
    }

    predicate Asserted() {
      match this
      case FactItem(n) => n.asserted
      case RuleItem(n) => n.asserted
    }

    /** The same item with its assertion withdrawn, as `kb_remove` leaves its argument. */
    function Unasserted(): Item {
      match this
      case FactItem(n) => FactItem(n.(asserted := false))
      case RuleItem(n) => RuleItem(n.(asserted := false))
    }

    /** The edge that points at this item from the items that derived it. */
    function EdgeTo(): Edge {
      match this
      case FactItem(n) => ToFact(n.key)
      case RuleItem(n) => ToRule(n.key)
    }
  }

  /** The store: facts and rules, each list in insertion order. */
  datatype KB = KB(facts: seq<Fact>, rules: seq<Rule>)

  /**
   * `item` is, field for field, the entry a lookup of its key finds: the
   * value-level reading of "the caller holds the stored object itself".
   */
  predicate IsStored(kb: KB, item: Item) {
    match item
    case FactItem(f) => Get(kb.facts, f.key) == Some(f)
    case RuleItem(rl) => Get(kb.rules, rl.key) == Some(rl)
  }

  /** A store built without the shared mutable default arguments: both lists empty. */
  const EmptyKB := KB([], [])

  function Keys<K>(ns: seq<Node<K>>): (ks: seq<K>)
    ensures |ks| == |ns|
    ensures forall i :: 0 <= i < |ns| ==> ks[i] == ns[i].key
  {
    seq(|ns|, i requires 0 <= i < |ns| => ns[i].key)
  }

  /** No two stored nodes are equal. */
  ghost predicate NoDup<K>(ns: seq<Node<K>>) {
    forall i, j :: 0 <= i < j < |ns| ==> ns[i].key != ns[j].key
  }

  /**
   * The position of the first key equal to `k`, as `list.index` finds it;
   * `None` where `k in list` is false.
   */
  function Find<K(==)>(ks: seq<K>, k: K): (r: Option<nat>)
    ensures r.None? <==> k !in ks
    ensures r.Some? ==> r.value < |ks| && ks[r.value] == k && k !in ks[..r.value]
  {
    if |ks| == 0 then None
    else if ks[0] == k then Some(0)
    else
      match Find(ks[1..], k)
      case None => None
      case Some(i) =>
        assert ks[..i + 1] == [ks[0]] + ks[1..][..i];
        Some(i + 1)
  }

  /**
   * `_get_fact` / `_get_rule`: the first stored node equal to the key, or
   * `None` when there is none.
   */
  function Get<K(==)>(ns: seq<Node<K>>, k: K): (r: Option<Node<K>>)
    ensures r.None? <==> k !in Keys(ns)
    ensures r.Some? ==> r.value in ns && r.value.key == k
    ensures NoDup(ns) ==> forall n :: n in ns && n.key == k ==> r == Some(n)
  {
    match Find(Keys(ns), k)
    case None => None
    case Some(i) => Some(ns[i])
  }

  /**
   * The merge branch of `kb_add`: a re-added node that carries support pairs
   * has them appended, in order and without deduplication, to the stored
   * node's `supportedBy`; one that carries none marks the stored node
   * asserted. Nothing else changes.
   */
  function Merge<K>(ns: seq<Node<K>>, i: nat, incoming: Node<K>): (r: seq<Node<K>>)
    requires i < |ns|
    ensures |r| == |ns| && Keys(r) == Keys(ns)
    ensures forall j :: 0 <= j < |ns| && j != i ==> r[j] == ns[j]
    ensures r[i].supportsFacts == ns[i].supportsFacts && r[i].supportsRules == ns[i].supportsRules
    ensures incoming.supportedBy != [] ==>
              r[i].supportedBy == ns[i].supportedBy + incoming.supportedBy && r[i].asserted == ns[i].asserted
    ensures incoming.supportedBy == [] ==>
              r[i].supportedBy == ns[i].supportedBy && r[i].asserted
  {
    var n := ns[i];
    if incoming.supportedBy != [] then ns[i := n.(supportedBy := n.supportedBy + incoming.supportedBy)]
    else ns[i := n.(asserted := true)]
  }

  /**
   * Records the forward edge `e` on the stored node equal to `k` (its first
   * occurrence); a key that is not stored leaves the list as it was.
   */
  function Link<K(==)>(ns: seq<Node<K>>, k: K, e: Edge): (r: seq<Node<K>>)
    ensures |r| == |ns| && Keys(r) == Keys(ns)
    ensures forall j :: 0 <= j < |ns| && Find(Keys(ns), k) != Some(j) ==> r[j] == ns[j]
    ensures Find(Keys(ns), k).Some? ==>
              var i := Find(Keys(ns), k).value;
              && r[i].asserted == ns[i].asserted
              && r[i].supportedBy == ns[i].supportedBy
              && (e.ToFact? ==> r[i].supportsFacts == ns[i].supportsFacts + [e.statement]
                                && r[i].supportsRules == ns[i].supportsRules)
              && (e.ToRule? ==> r[i].supportsRules == ns[i].supportsRules + [e.rule]
                                && r[i].supportsFacts == ns[i].supportsFacts)
  {
    match Find(Keys(ns), k)
    case None => ns
    case Some(i) =>
      var n := ns[i];
      var n' := match e
        case ToFact(s) => n.(supportsFacts := n.supportsFacts + [s])
        case ToRule(rk) => n.(supportsRules := n.supportsRules + [rk]);
      var r := ns[i := n'];
      assert Keys(r) == Keys(ns);
      r
  }

  /**
   * `ms` is `ns` with the assertion of the stored node equal to `k` (its
   * first occurrence) withdrawn: same length and keys, that node unchanged
   * but for `asserted`, which is false, and every other node as it was.
   */
  ghost predicate ClearedAt<K>(ns: seq<Node<K>>, ms: seq<Node<K>>, k: K) {
    && |ms| == |ns|
    && Keys(ms) == Keys(ns)
    && (forall j :: 0 <= j < |ns| && Find(Keys(ns), k) != Some(j) ==> ms[j] == ns[j])
    && (Find(Keys(ns), k).Some? ==>
          var i := Find(Keys(ns), k).value;
          && !ms[i].asserted
          && ms[i].supportedBy == ns[i].supportedBy
          && ms[i].supportsFacts == ns[i].supportsFacts
          && ms[i].supportsRules == ns[i].supportsRules)
  }

  /**
   * Withdraws the assertion of the stored node equal to `k` (its first
   * occurrence), as the first branch of `kb_remove` does; a key that is not
   * stored leaves the list as it was.
   */
  function Clear<K(==)>(ns: seq<Node<K>>, k: K): (r: seq<Node<K>>)
    ensures ClearedAt(ns, r, k)
  {
    match Find(Keys(ns), k)
    case None => ns
    case Some(i) =>
      var r := ns[i := ns[i].(asserted := false)];
      assert Keys(r) == Keys(ns);
      r
  }

  /**
   * A node as the user states it. This model takes `Fact(statement)` and
   * `Rule(...)` built without support pairs to be asserted and to have no
   * edges yet.
   */
  function UserNode<K>(k: K): Node<K> {
    Node(k, true, [], [], [])
  }

  /**
   * Re-asserting undoes a withdrawn assertion: merging a user node into the
   * cleared list restores the list exactly, provided the node was asserted.
   */
  lemma MergeUndoesClear<K>(ns: seq<Node<K>>, k: K)
    requires k in Keys(ns)
    requires ns[Find(Keys(ns), k).value].asserted
    ensures Find(Keys(Clear(ns, k)), k) == Find(Keys(ns), k)
    ensures Merge(Clear(ns, k), Find(Keys(ns), k).value, UserNode(k)) == ns
  {
    var i := Find(Keys(ns), k).value;
    var ms := Merge(Clear(ns, k), i, UserNode(k));
    assert ms[i] == ns[i];
    assert forall j :: 0 <= j < |ns| ==> ms[j] == ns[j];
  }

  /** Re-asserting a node that is already asserted changes nothing. */
  lemma MergeAssertedIsIdentity<K>(ns: seq<Node<K>>, i: nat, incoming: Node<K>)
    requires i < |ns| && ns[i].asserted && incoming.supportedBy == []
    ensures Merge(ns, i, incoming) == ns
  {
    var ms := Merge(ns, i, incoming);
    assert ms[i] == ns[i];
    assert forall j :: 0 <= j < |ns| ==> ms[j] == ns[j];
  }

  /** The stored node equal to `k` is asserted. */
  ghost predicate AssertedAt<K>(ns: seq<Node<K>>, k: K) {
    match Get(ns, k)
    case None => false
    case Some(n) => n.asserted
  }

  /** The stored node equal to `k` records `sup` as one of its justifications. */
  ghost predicate HasSupport<K>(ns: seq<Node<K>>, k: K, sup: Support) {
    match Get(ns, k)
    case None => false
    case Some(n) => sup in n.supportedBy
  }

  /** The stored node equal to `k` records the forward edge `e`. */
  ghost predicate HasEdgeAt<K>(ns: seq<Node<K>>, k: K, e: Edge) {
    match Get(ns, k)
    case None => false
    case Some(n) => n.HasEdge(e)
  }

  /**
   * `b` is `a` after only additions: the same item, every list extended at
   * its end, and an assertion never withdrawn.
   */
  ghost predicate NodeGrows<K>(a: Node<K>, b: Node<K>) {
    && b.key == a.key
    && a.supportedBy <= b.supportedBy
    && a.supportsFacts <= b.supportsFacts
    && a.supportsRules <= b.supportsRules
    && (a.asserted ==> b.asserted)
  }

  /** `ms` keeps every node of `ns`, in place and grown, and may append new ones. */
  ghost predicate SeqGrows<K>(ns: seq<Node<K>>, ms: seq<Node<K>>) {
    |ns| <= |ms| && forall i :: 0 <= i < |ns| ==> NodeGrows(ns[i], ms[i])
  }

  ghost predicate Grows(kb: KB, kb': KB) {
    SeqGrows(kb.facts, kb'.facts) && SeqGrows(kb.rules, kb'.rules)
  }

  /**
   * `ms` changes no assertion: every node of `ns` keeps its flag, and every
   * node appended after them is unasserted.
   */
  ghost predicate SeqAssertsNothing<K>(ns: seq<Node<K>>, ms: seq<Node<K>>) {
    && |ns| <= |ms|
    && (forall i :: 0 <= i < |ns| ==> ms[i].asserted == ns[i].asserted)
    && (forall i :: |ns| <= i < |ms| ==> !ms[i].asserted)
  }

  ghost predicate AssertsNothing(kb: KB, kb': KB) {
    SeqAssertsNothing(kb.facts, kb'.facts) && SeqAssertsNothing(kb.rules, kb'.rules)
  }

  lemma AssertsNothingTransitive(a: KB, b: KB, c: KB)
    ensures AssertsNothing(a, b) && AssertsNothing(b, c) ==> AssertsNothing(a, c)
  {
  }

  lemma AssertsNothingReflexive(kb: KB)
    ensures AssertsNothing(kb, kb)
  {
  }

  /** Recording forward edges changes no assertion. */
  lemma LinkAssertsNothing(kb: KB, s: Statement, rk: RuleKey, e: Edge)
    ensures AssertsNothing(kb, KB(Link(kb.facts, s, e), Link(kb.rules, rk, e)))
  {
  }

  /** Merging in support pairs changes no assertion. */
  lemma MergeAssertsNothing<K>(ns: seq<Node<K>>, i: nat, incoming: Node<K>)
    requires i < |ns|
    ensures incoming.supportedBy != [] ==> SeqAssertsNothing(ns, Merge(ns, i, incoming))
  {
  }

  /** Appending an unasserted node changes no assertion. */
  lemma AppendAssertsNothing<K>(ns: seq<Node<K>>, n: Node<K>)
    ensures !n.asserted ==> SeqAssertsNothing(ns, ns + [n])
  {
  }

  lemma SeqGrowsTransitive<K>(ns: seq<Node<K>>, ms: seq<Node<K>>, os: seq<Node<K>>)
    requires SeqGrows(ns, ms) && SeqGrows(ms, os)
    ensures SeqGrows(ns, os)
  {
    forall i | 0 <= i < |ns|
      ensures NodeGrows(ns[i], os[i])
    {
      assert NodeGrows(ns[i], ms[i]) && NodeGrows(ms[i], os[i]);
    }
  }

  lemma GrowsTransitive(a: KB, b: KB, c: KB)
    requires Grows(a, b) && Grows(b, c)
    ensures Grows(a, c)
  {
    SeqGrowsTransitive(a.facts, b.facts, c.facts);
    SeqGrowsTransitive(a.rules, b.rules, c.rules);
  }

  /** The first occurrence of a key does not move when the list is extended at its end. */
  lemma {:induction false} FindPrefix<K>(ks: seq<K>, ks': seq<K>, k: K)
    requires k in ks && ks <= ks'
    ensures Find(ks', k) == Find(ks, k)
    decreases |ks|
  {
    if ks[0] != k {
      assert ks[1..] <= ks'[1..];
      FindPrefix(ks[1..], ks'[1..], k);
    }
  }

  lemma KeysPrefix<K>(ns: seq<Node<K>>, ms: seq<Node<K>>)
    requires SeqGrows(ns, ms)
    ensures Keys(ns) <= Keys(ms)
  {
    assert Keys(ns) == Keys(ms)[..|ns|];
  }

  /** Growth keeps every stored key where it was, so lookups keep finding the same node, grown. */
  lemma GetGrows<K>(ns: seq<Node<K>>, ms: seq<Node<K>>, k: K)
    requires SeqGrows(ns, ms) && k in Keys(ns)
    ensures Find(Keys(ms), k) == Find(Keys(ns), k)
    ensures Get(ms, k).Some? && NodeGrows(Get(ns, k).value, Get(ms, k).value)
  {
    KeysPrefix(ns, ms);
    FindPrefix(Keys(ns), Keys(ms), k);
  }

  /** Support pairs and forward edges, once recorded, survive growth. */
  lemma RecordsGrow<K>(ns: seq<Node<K>>, ms: seq<Node<K>>, k: K, sup: Support, e: Edge)
    requires SeqGrows(ns, ms)
    ensures HasSupport(ns, k, sup) ==> HasSupport(ms, k, sup)
    ensures HasEdgeAt(ns, k, e) ==> HasEdgeAt(ms, k, e)
  {
    if k in Keys(ns) {
      GetGrows(ns, ms, k);
    }
  }

  lemma MergeGrows<K>(ns: seq<Node<K>>, i: nat, incoming: Node<K>)
    requires i < |ns|
    ensures SeqGrows(ns, Merge(ns, i, incoming))
  {
  }

  lemma LinkGrows<K>(ns: seq<Node<K>>, k: K, e: Edge)
    ensures SeqGrows(ns, Link(ns, k, e))
  {
  }

  lemma NoDupSameKeys<K>(ns: seq<Node<K>>, ms: seq<Node<K>>)
    requires Keys(ns) == Keys(ms)
    ensures NoDup(ns) ==> NoDup(ms)
  {
    if NoDup(ns) {
      forall i, j | 0 <= i < j < |ms|
        ensures ms[i].key != ms[j].key
      {
        assert Keys(ms)[i] == ns[i].key && Keys(ms)[j] == ns[j].key;
      }
    }
  }

  lemma NoDupAppend<K>(ns: seq<Node<K>>, n: Node<K>)
    requires n.key !in Keys(ns)
    ensures NoDup(ns) ==> NoDup(ns + [n])
  {
    forall i | 0 <= i < |ns|
      ensures ns[i].key != n.key
    {
      assert Keys(ns)[i] == ns[i].key;
    }
  }

  /** A node appended under a new key is what a lookup of that key finds. */
  lemma GetAppended<K>(ns: seq<Node<K>>, n: Node<K>)
    requires n.key !in Keys(ns)
    ensures Find(Keys(ns + [n]), n.key) == Some(|ns|)
    ensures Get(ns + [n], n.key) == Some(n)
  {
    assert Keys(ns + [n]) == Keys(ns) + [n.key];
  }

  /** Recording a forward edge on a stored key makes that edge visible there. */
  lemma LinkRecords<K>(ns: seq<Node<K>>, k: K, e: Edge)
    requires k in Keys(ns)
    ensures HasEdgeAt(Link(ns, k, e), k, e)
  {
    var i := Find(Keys(ns), k).value;
    assert Get(Link(ns, k, e), k) == Some(Link(ns, k, e)[i]);
  }

  lemma PrefixMembers<T>(a: seq<T>, b: seq<T>)
    requires a <= b
    ensures forall x :: x in a ==> x in b
  {
    forall x | x in a
      ensures x in b
    {
      var k :| 0 <= k < |a| && a[k] == x;
      assert b[k] == x;
    }
  }

  /** A node appended under a new key keeps all its justifications through later growth. */
  lemma AppendedKeepsSupport<K>(ns: seq<Node<K>>, n: Node<K>, ms: seq<Node<K>>)
    requires n.key !in Keys(ns) && SeqGrows(ns + [n], ms)
    ensures forall p :: p in n.supportedBy ==> HasSupport(ms, n.key, p)
  {
    GetAppended(ns, n);
    GetGrows(ns + [n], ms, n.key);
    PrefixMembers(n.supportedBy, Get(ms, n.key).value.supportedBy);
  }

  /** A merged node keeps every justification the re-added node brought. */
  lemma MergeKeepsSupport<K>(ns: seq<Node<K>>, n: Node<K>)
    requires n.key in Keys(ns)
    ensures forall p :: p in n.supportedBy ==>
              HasSupport(Merge(ns, Find(Keys(ns), n.key).value, n), n.key, p)
  {
    var i := Find(Keys(ns), n.key).value;
    var ms := Merge(ns, i, n);
    assert Get(ms, n.key) == Some(ms[i]);
  }
}

=== FILE: wrappers.dfy ===
/** Optional values, standing in for Python's `None` and for `match` failing. */
module Wrappers {

  datatype Option<+T> = None | Some(value: T)
}
